=== FILE: README.md ===
# speedtest-exporter, modelled in Dafny

speedtest-exporter runs an external speed-test utility against a list of
servers, once at start-up and then on every tick of a timer. It publishes the
measurements as Prometheus gauges. This project models the three sequential
parts of the exporter and proves properties of them:

- **Result records and the per-cycle test loop** (`speedtest/speedtest.go`):
  the `TestResults` record and its `IsZero` / `IsMissingData` predicates.
  `RunTest` builds the command line for one server and maps the process and
  decoding outcome to a record and an error. `RunTests` visits the servers in
  order, checks for cancellation before each one, keeps going past failures
  and collects the errors in a go-multierror value.
- **Duration unquoting** (`speedtest/config.go`): `jsonDuration.UnmarshalJSON`
  requires an opening and a closing `"`, strips every quote at either end with
  `strings.Trim`, and hands the rest to `time.ParseDuration`. Also
  `MarshalJSON`, `String` and `GoString`.
- **Metric updates and the run loop** (`run.go`): `runSpeedTests` writes eight
  labelled gauges per result into the registry, bumps the `runs` counter and
  brackets the cycle with the `running` gauge. Ping and jitter are converted
  from float milliseconds to seconds through an integer `time.Duration`. `run`
  and `Close` are modelled as a state machine over a trace of `Tick` and
  `Close` events.

Modules (one file each): `Maybe` (Option/Result), `Decimal` (`strconv.Itoa`
and a parser to read it back), `Results`, `SpeedTest`, `JsonDuration`,
`Metrics`, `Runner`, and `Scenarios` (concrete runs).

Abstractions:

- Running the utility and decoding its JSON output are one `Exec` function
  from the command line to `ProcFailed | ParseFailed | Parsed(record)`.
  Each cycle gets its own `Exec`.
- Cancellation of the context is a number `cancelAt`. The check before
  target `i` sees the context closed exactly when `i >= cancelAt`, so once
  cancellation is seen it stays seen.
- `time.ParseDuration` and `time.Duration.String` are function parameters.
  Nothing is assumed about them except where a lemma says so.
- The Prometheus registry is a map from (gauge, label tuple) to a real. Go's
  `float64` is modelled as `real`, and Go's `int` as an unbounded integer.

What a cycle publishes, as the code does it:

- `RunTests` appends a record for every server it attempts, including failed
  ones (speedtest/speedtest.go:96-98). A failed server contributes the zero
  record `TestResults{}`, which is then published under the labels
  `("0", "", "")`. With servers 100 and 200, where 200 fails, the cycle yields
  two records, the second one zero (`Scenarios.TwoServersOneFails`).
- A failed server's own series keep their previous values. This is the
  carry-forward behaviour. In addition, the zero series `("0", "", "")` are
  overwritten with zeros.
- With an empty server list, or with cancellation before the first server,
  the aggregated error is nil, because `ErrorOrNil` returns nil on an empty
  list.

## Model

| member | source | states |
|---|---|---|
| `Results.Ping.IsZero` | speedtest/speedtest.go:39-41 | Both ping fields are zero; related to `IsMissingData` by `Results.ZeroImpliesMissing` |
| `Results.Ping.IsMissingData` | speedtest/speedtest.go:43-45 | The latency is zero; jitter is not consulted (`Results.MissingDataIgnoresLossAndJitter`) |
| `Results.Speed.IsZero` | speedtest/speedtest.go:53-55 | All three speed fields are zero |
| `Results.Speed.IsMissingData` | speedtest/speedtest.go:57-59 | Any of the three speed fields is zero |
| `Results.Server.IsZero` | speedtest/speedtest.go:70-77 | All six server fields are zero or empty |
| `Results.Server.IsMissingData` | speedtest/speedtest.go:79-86 | Any of the six server fields is zero or empty |
| `Results.TestResults.IsMissingData` | speedtest/speedtest.go:25-32 | The ping, either speed or the server is missing data, or the ISP is empty; spelt out field by field in `Results.MissingDataFields` |
| `Results.ZeroImpliesMissing` | speedtest/speedtest.go:39-86 | For `Ping`, `Speed` and `Server`, `IsZero` implies `IsMissingData` |
| `Results.MissingDataFields` | speedtest/speedtest.go:25-32 | A record is missing data exactly when one of these is zero or empty: latency, the three download fields, the three upload fields, the six server fields, or the ISP |
| `Results.MissingDataIgnoresLossAndJitter` | speedtest/speedtest.go:25-32 | Changing packet loss or jitter never changes `IsMissingData` |
| `Results.ZeroResultsMissing` | speedtest/speedtest.go:125-131 | The zero record returned on failure is missing data, and its ping, speeds and server are each `IsZero` |
| `Decimal.Itoa` | speedtest/speedtest.go:116 | `strconv.Itoa`: a minus sign for negative numbers, then the decimal digits; `Decimal.ItoaRoundTrip` reads it back |
| `Decimal.ItoaRoundTrip` | speedtest/speedtest.go:116 | The decimal text of any integer, negative ones included, parses back to that integer |
| `Decimal.ItoaInjective` | run.go:228-232 | Distinct server ids give distinct `server_id` labels |
| `SpeedTest.TestArgs` | speedtest/speedtest.go:116 | The command line for one server; its shape is stated by `SpeedTest.TestArgsShape` |
| `SpeedTest.TestArgsShape` | speedtest/speedtest.go:116 | The command line is the base arguments followed by `-s` and the id: its length is two more than the base, the base is a prefix, and the last argument parses back to the server id |
| `SpeedTest.RunTest` | speedtest/speedtest.go:112-137 | A process failure gives the run error and a decoding failure gives the unmarshal error; in both cases the record is the zero record. Otherwise the result is the decoded record and no error |
| `SpeedTest.Append` | speedtest/speedtest.go:97 | Appending a nil error changes nothing. Appending a real error adds it at the end and keeps the earlier ones |
| `SpeedTest.Loop` | speedtest/speedtest.go:91-99 | After `i` steps the loop holds `min(cancelAt, i)` records, one per attempted server in order (failures as zero records). It has returned exactly when cancellation was seen. Its collected errors are the failed attempts' own errors (`RunFailed` or `UnmarshalFailed`), in server order (`SpeedTest.FailureErrors`) |
| `SpeedTest.RunTests` | speedtest/speedtest.go:88-101 | Exactly `min(cancelAt, n)` servers are attempted. Record `j` is server `j`'s outcome. The error is non-nil iff an attempted server failed, and then it holds one entry per failure: each failed server's own error, in server order |
| `SpeedTest.FailureErrors` | speedtest/speedtest.go:96-97 | The errors the failing servers' tests return, in server order, each as `RunTest` reported it; there are exactly as many as `SpeedTest.FailureCount` counts failures |
| `SpeedTest.AppendThenErrorOrNil` | speedtest/speedtest.go:97-100 | After an `Append`, `ErrorOrNil` is nil exactly when nothing was collected and the appended error is nil; a non-nil error ends up last, after the earlier ones |
| `SpeedTest.ErrorIffSomeFailure` | speedtest/speedtest.go:90-100 | The aggregated error is nil exactly when every attempted server succeeded |
| `SpeedTest.NothingAttempted` | speedtest/speedtest.go:89-93 | Cancellation before the first server, or an empty list, gives no records and a nil error |
| `SpeedTest.AllFail` | speedtest/speedtest.go:91-100 | When every attempt fails, every record is the zero record and the error has one entry per attempt |
| `JsonDuration.TrimLeftQuotes` | speedtest/config.go:49 | The result is a suffix of the input, everything removed is a quote, and the result does not start with a quote |
| `JsonDuration.TrimRightQuotes` | speedtest/config.go:49 | The result is a prefix of the input, everything removed is a quote, and the result does not end with a quote |
| `JsonDuration.TrimQuotes` | speedtest/config.go:49 | The text handed to `ParseDuration` neither starts nor ends with a quote |
| `JsonDuration.TrimQuotesShape` | speedtest/config.go:49 | The input is a run of quotes, then the trimmed text, then a run of quotes |
| `JsonDuration.TrimQuotesIdempotent` | speedtest/config.go:49 | Trimming twice is the same as trimming once |
| `JsonDuration.TrimQuotesUnwraps` | speedtest/config.go:49 | Any number of quotes around a text with no quote at either end are removed exactly, whatever the count on each side |
| `JsonDuration.UnmarshalJSON` | speedtest/config.go:41-57 | No opening quote gives `invalid duration1`. An opening quote without a closing one gives `invalid duration2`. With both quotes, a parse failure returns the parser's own error. Success happens exactly when both quotes are there and the trimmed text parses, and the receiver then holds the parsed value. On every error the receiver is unchanged |
| `JsonDuration.DoubledQuotesAccepted` | speedtest/config.go:43-51 | `""5m""` is accepted and parsed as `5m` |
| `JsonDuration.LoneQuoteReachesParser` | speedtest/config.go:42-51 | The single character `"` passes both checks and reaches the parser as the empty string |
| `JsonDuration.GoStringIsMarshalled` | speedtest/config.go:29-39 | `GoString`, `String` and `MarshalJSON` all write the same text, the duration's own rendering, so what `JsonDuration.MarshalNotRoundTrip` says of `MarshalJSON` holds of `GoString` too |
| `JsonDuration.MarshalNotRoundTrip` | speedtest/config.go:29-45 | Whenever the rendering does not start with a quote, `UnmarshalJSON` rejects what `MarshalJSON` writes with `invalid duration1` and leaves the receiver unchanged |
| `JsonDuration.String` | speedtest/config.go:33-35 | The duration's own rendering, the `Show` parameter standing for `Duration.String` |
| `JsonDuration.MarshalJSON` | speedtest/config.go:29-31 | As written: the rendering without quotes; `JsonDuration.MarshalNotRoundTrip` shows `UnmarshalJSON` refuses it |
| `JsonDuration.MarshalJSONQuoted` | speedtest/config.go:29-31 | The corrected marshaller writes the rendering between two quotes |
| `JsonDuration.MarshalQuotedRoundTrip` | speedtest/config.go:29-57 | If the parser reads the rendering back and the rendering has no quote at either end, quoted marshalling followed by `UnmarshalJSON` restores the duration without error |
| `Metrics.Trunc` | run.go:242-243 | Converting a float to `time.Duration` drops the fraction, rounding toward zero for both signs |
| `Metrics.Wrap64` | run.go:242-243 | The product with `time.Millisecond` wraps modulo 2^64 into the signed 64-bit range, and is exact when it fits |
| `Metrics.MillisToSeconds` | run.go:242-245 | When the product fits in 64 bits, the seconds published are the truncated milliseconds divided by 1000 |
| `Metrics.MillisToSecondsBounds` | run.go:242-245 | For readings from 0 up to 1e9 ms, the published seconds are at most the exact value and less than 1 ms below it |
| `Metrics.MillisToSecondsExamples` | run.go:242-245 | 10 ms is published as 0.010 s, and 1.9 ms as 0.001 s |
| `Metrics.LabelsIdentifyServer` | run.go:228-232 | The `server_id` label reads back as the server id, so equal labels mean equal ids |
| `Metrics.LabelsOf` | run.go:228-232 | The label tuple of a result: the decimal server id, the server name and the location; `Metrics.LabelsIdentifyServer` relates it to the id |
| `Metrics.GaugeValue` | run.go:234-245 | The value each of the eight gauges takes from a result, with ping and jitter through `Metrics.MillisToSeconds` |
| `Metrics.SetEight` | run.go:234-245 | The eight `Set` calls in source order; `Metrics.EightSetsAreSetResult` equates them with `Metrics.SetResult` |
| `Metrics.SetResult` | run.go:227-246 | One result writes all eight series of its label tuple from its fields and leaves every other series untouched |
| `Metrics.EightSetsAreSetResult` | run.go:234-245 | The eight `Set` calls, in source order, amount to `SetResult` |
| `Metrics.LastIndexWith` | run.go:227-233 | Gives the position of the last result with the given labels, with no later result carrying them, or -1 when no result carries them |
| `Metrics.Publish` | run.go:227-246 | Series whose labels no result carries keep their values (carry-forward). Every other series holds the value from the last result with its labels, so for duplicate labels the later result wins |
| `Metrics.PublishIdempotent` | run.go:234-245 | Publishing the same results twice gives the same map as publishing them once |
| `Metrics.ZeroRecordWritesZeros` | run.go:227-240 | A zero record anywhere among the results leaves 0 in all eight series labelled `("0", "", "")`, provided every result under those labels is a zero record |
| `Runner.RunSpeedTests` | run.go:201-250 | Once the context is cancelled, nothing changes. Otherwise `runs` grows by exactly 1 whatever the errors, and `running` ends at 0. The runner counts as cancelled afterwards exactly when a `Close` cut the cycle short. Unrelated series carry forward, every series that appears gets the last matching result's value, and no series appears that neither existed before nor belongs to a result |
| `Runner.Step` | run.go:100-113 | A tick runs `runSpeedTests`. `Close` (run.go:252-255) leaves the cancelled and stopped runner with every modelled metric unchanged; a cancelled runner stays cancelled and unchanged; a stopped one stays stopped |
| `Runner.RunTrace` | run.go:98-113 | The loop over events, one `Runner.Step` each; its effect is stated by `Runner.CancelledIsFrozen`, `Runner.StoppedStays` and `Runner.RunsCountsTicksBeforeClose` |
| `Runner.Run` | run.go:93-113 | The start-up cycle, possibly preceded by `Close`, then the loop; counted by `Runner.RunCountsCycles` |
| `Runner.RunningBracketsCycle` | run.go:208-246 | Over the sequence of states a cycle passes through, in source order (after `running.Set(1)`, after `runs.Add(1)`, one state after each result's eight `Set`s, then after the deferred `running.Set(0)`), `running` reads 1 in every state but the last and 0 in the last. `runs` is one higher from the `runs.Add` on. The last state is what `runSpeedTests` leaves |
| `Runner.ResultWritesPublish` | run.go:227-246 | After the last result's `Set` calls the gauges are exactly what `Metrics.Publish` computes for the whole list |
| `Runner.CancelledIsFrozen` | run.go:201-204 | Once the context is cancelled, no trace changes any modelled metric, and the runner stays cancelled |
| `Runner.CloseFreezes` | run.go:252-255 | After `Close` the runner is cancelled and stopped, and no later event changes a modelled metric, not even a tick that wins the `select` race |
| `Runner.StoppedStays` | run.go:100-103 | Once `Done` is closed it stays closed; the flag is bookkeeping, see Left out |
| `Runner.RunsCountsTicksBeforeClose` | run.go:100-113 | Over a trace, `runs` grows by the number of ticks up to and including the event that cancels the context |
| `Runner.RunCountsCycles` | run.go:93-113 | Over a whole run, `runs` is the start-up cycle plus the ticks processed before `Close`; it is 0 when `Close` cancels the context before the start-up cycle |
| `Runner.RepeatedCycleSameGauges` | run.go:227-246 | Two cycles with the same outcomes leave the same gauges as one cycle, whether or not the context was cancelled |
| `Runner.FailedTargetPublishesZeros` | run.go:227-240 | When some server reached fails and no successful test reports the labels `("0", "", "")`, all eight series under those labels read 0 after the cycle |
| `Scenarios.TwoServersTests` | speedtest/speedtest.go:112-137 | With servers 100 and 200, where only 100 answers, `RunTest` gives the decoded record for 100 and the zero record with the run error for 200 |
| `Scenarios.TwoServersOneFails` | speedtest/speedtest.go:88-101 | The same cycle gives two records (the second one zero) and a multierror with exactly one run error |
| `Scenarios.TwoServersPingPublished` | run.go:242-245 | Running that cycle from the initial state puts 0.010 into `ping_seconds` for the labels `("100", "A", "L")` |
| `Scenarios.StartupTickThenClose` | run.go:93-113 | Start-up, one tick, then `Close` counts two runs, and a tick after `Close` changes no modelled metric |

## Left out

- The HTTP server, `promhttp`, signal waiting and process exit in `run` (run.go:22-49): I/O and process lifecycle.
- `getConfig` (run.go:51-64) and the JSON decoding of the configuration and of the utility's output: I/O and a foreign decoder. `SpeedTest.Exec` stands for the subprocess and its decoding. `JsonDuration.Parser` and `JsonDuration.Show` stand for `time.ParseDuration` and `Duration.String`.
- The tick interval (`Config.TickRate`) and the wall-clock gauges `last_start_time`, `last_finish_time`, `run_time_seconds` and `wait_time_seconds`: they depend on real time.
- The `life.Life` goroutine, the ticker channel and the registry's locking: concurrency. The run loop is a sequential trace of events. A tick after `Close` is modelled as the `select` choosing the ticker.
- `Runner.Step`: `Close` is treated as idempotent. The source calls it once and never again.
- The `stopped` field of a `Runner.Runner` is bookkeeping only: it records that `Life.Done` is closed, but no event reads it. When the loop's `select` takes `Done` and returns (run.go:101-102) is not modelled. A trace just goes on with the ticks the `select` might still pick, and `Runner.CloseFreezes` shows those change no modelled metric.
- A tick that wins the `select` after `Close` still writes `wait_time_seconds` (run.go:105-107) before `runSpeedTests` returns early. Wall-clock gauges are not modelled, so the model's claims that nothing changes after `Close` are about the modelled metrics only.
- Logging throughout, and `main.go`.
- `newRunner` (run.go:77-91) is the constant `Runner.Initial`: a fresh context, no runs yet, an empty registry. The `life.Life` wiring is concurrency.
- Metric names, namespaces and help texts (run.go:116-199): the model tells gauges apart by the enum `Metrics.Gauge`.
- `SpeedTest.Exec` answers the same command line the same way within one cycle. A server listed twice in one cycle therefore gets the same outcome twice.
- Error values carry only their kind. The wrapped operating-system or decoder error, and the message text, are not modelled.
- IEEE floating point is modelled as reals: no NaN, no negative zero, no rounding in `Seconds()`.
- `Metrics.Trunc`: the conversion of a float outside the signed 64-bit range is not modelled. Go leaves that case implementation-defined. The model truncates exactly and wraps only the product with `time.Millisecond`.
- Byte slices in `UnmarshalJSON` and `MarshalJSON` are modelled as strings of characters.

## Findings

| source | as written | input that shows it | evidently intended | confidence | as-written member | corrected member |
|---|---|---|---|---|---|---|
| speedtest/config.go:29-31 | `MarshalJSON` returns the bare `Duration.String()` text without JSON quotes | a 30-minute tick: `MarshalJSON` writes `30m0s`, which is not a JSON value, and `UnmarshalJSON` rejects it with `invalid duration1` | write the rendering as a JSON string, `"30m0s"`, which `UnmarshalJSON` reads back | medium, not executed | `JsonDuration.MarshalNotRoundTrip` | `JsonDuration.MarshalQuotedRoundTrip` |

=== FILE: decimal.dfy ===
/** Decimal rendering of integers, as Go's `strconv.Itoa` does it, and a
    parser for the same notation used to state that the rendering can be read
    back. */
module Decimal {
  import opened Maybe

  predicate IsDigit(c: char) {
    '0' <= c <= '9'
  }

  predicate AllDigits(s: string) {
    forall k :: 0 <= k < |s| ==> IsDigit(s[k])
  }

  function DigitChar(d: nat): (c: char)
    requires d < 10
    ensures IsDigit(c)
  {
    (('0' as int) + d) as char
  }

  function DigitValue(c: char): (d: nat)
    requires IsDigit(c)
    ensures d < 10
  {
    (c as int) - ('0' as int)
  }

  /** The digits of `n`, most significant first, without leading zeros. */
  function NatDigits(n: nat): (s: string)
    decreases n
  {
    if n < 10 then [DigitChar(n)] else NatDigits(n / 10) + [DigitChar(n % 10)]
  }

  /** `strconv.Itoa`: a minus sign for negative numbers, then the digits. */
  function Itoa(n: int): string {
    if n < 0 then "-" + NatDigits(-n) else NatDigits(n)
  }

  /** The number a digit string denotes; the empty string denotes 0. */
  function DigitsValue(s: string): nat
    requires AllDigits(s)
    decreases |s|
  {
    if |s| == 0 then 0 else DigitsValue(s[..|s| - 1]) * 10 + DigitValue(s[|s| - 1])
  }

  /** Reads an optionally negative decimal numeral; anything else is rejected. */
  function Atoi(s: string): Option<int> {
    if |s| > 1 && s[0] == '-' && AllDigits(s[1..]) then Some(-(DigitsValue(s[1..]) as int))
    else if |s| > 0 && AllDigits(s) then Some(DigitsValue(s))
    else None
  }

  lemma {:induction false} NatDigitsWellFormed(n: nat)
    ensures |NatDigits(n)| > 0
    ensures AllDigits(NatDigits(n))
    ensures DigitsValue(NatDigits(n)) == n
    decreases n
  {
    if n >= 10 {
      NatDigitsWellFormed(n / 10);
      var p := NatDigits(n / 10);
      var s := p + [DigitChar(n % 10)];
      assert s[..|s| - 1] == p;
    }
  }

  /** The text `Itoa` produces parses back to the number it came from. */
  lemma ItoaRoundTrip(n: int)
    ensures Atoi(Itoa(n)) == Some(n)
  {
    if n < 0 {
      NatDigitsWellFormed(-n);
      var s := Itoa(n);
      assert s[1..] == NatDigits(-n);
    } else {
      NatDigitsWellFormed(n);
      assert Itoa(n)[0] != '-' by {
        assert IsDigit(Itoa(n)[0]);
      }
    }
  }

  /** Different numbers are rendered differently. */
  lemma ItoaInjective(m: int, n: int)
    ensures Itoa(m) == Itoa(n) ==> m == n
  {
    ItoaRoundTrip(m);
    ItoaRoundTrip(n);
  }
}

=== FILE: duration.dfy ===
/** The `tick` setting's JSON wrapper around a duration (speedtest/config.go).
    Go's `time.ParseDuration` and `Duration.String` are not modelled; they are
    supplied as the `Parser` and `Show` parameters.  Byte slices are modelled
    as strings. */
module JsonDuration {
  import opened Maybe

  /** `jsonDuration`: a `time.Duration`, a count of nanoseconds. */
  datatype JsonDuration = JsonDuration(duration: int)

  /** `time.ParseDuration`: a duration, or the text of its error. */
  type Parser = string -> Result<int, string>

  /** `time.Duration.String`. */
  type Show = int -> string

  /** The errors `UnmarshalJSON` returns: no opening quote, no closing quote, or the parser's error. */
  datatype UnmarshalError = InvalidDuration1(text: string) | InvalidDuration2(text: string) | ParseError(cause: string)

  /** What `UnmarshalJSON` leaves in the receiver, and the error it returns. */
  datatype Unmarshalled = Unmarshalled(d: JsonDuration, err: Option<UnmarshalError>)

  const Quote: char := '"'

  predicate HasPrefixQuote(s: string) {
    |s| > 0 && s[0] == Quote
  }

  predicate HasSuffixQuote(s: string) {
    |s| > 0 && s[|s| - 1] == Quote
  }

  predicate AllQuotes(s: string) {
    forall k :: 0 <= k < |s| ==> s[k] == Quote
  }

  /** `strings.TrimLeft(s, "\"")`: every leading quote goes. */
  function TrimLeftQuotes(s: string): (r: string)
    ensures |r| <= |s| && r == s[|s| - |r|..]
    ensures AllQuotes(s[..|s| - |r|])
    ensures !HasPrefixQuote(r)
    decreases |s|
  {
    if HasPrefixQuote(s) then
      var r := TrimLeftQuotes(s[1..]);
      TrimLeftStep(s, r);
      r
    else s
  }

  /** A leading quote in front of what trimming the rest removes is removed as well. */
  lemma TrimLeftStep(s: string, r: string)
    requires HasPrefixQuote(s)
    requires |r| <= |s| - 1 && r == s[1..][|s| - 1 - |r|..]
    requires AllQuotes(s[1..][..|s| - 1 - |r|])
    ensures r == s[|s| - |r|..]
    ensures AllQuotes(s[..|s| - |r|])
  {
    var j := |s| - |r|;
    assert s[1..][j - 1..] == s[j..];
    forall k | 0 <= k < j
      ensures s[..j][k] == Quote
    {
      if k > 0 {
        assert s[1..][..j - 1][k - 1] == s[k];
      }
    }
  }

  /** `strings.TrimRight(s, "\"")`: every trailing quote goes. */
  function TrimRightQuotes(s: string): (r: string)
    ensures |r| <= |s| && r == s[..|r|]
    ensures AllQuotes(s[|r|..])
    ensures !HasSuffixQuote(r)
    decreases |s|
  {
    if HasSuffixQuote(s) then
      var r := TrimRightQuotes(s[..|s| - 1]);
      assert s[|r|..] == s[..|s| - 1][|r|..] + [s[|s| - 1]];
      r
    else s
  }

  /** `strings.Trim(s, "\"")`: the middle of `s` once all leading and trailing quotes are gone. */
  function TrimQuotes(s: string): (r: string)
    ensures !HasPrefixQuote(r) && !HasSuffixQuote(r)
    ensures |r| <= |s|
  {
    var l := TrimLeftQuotes(s);
    var r := TrimRightQuotes(l);
    assert !HasPrefixQuote(r) by {
      if |r| > 0 { assert r[0] == l[0]; }
    }
    r
  }

  /** What trimming removes: a run of quotes before the result and a run of quotes after it. */
  lemma TrimQuotesShape(s: string)
    ensures var r := TrimQuotes(s); var i := |s| - |TrimLeftQuotes(s)|;
      && i + |r| <= |s| && s == s[..i] + r + s[i + |r|..]
      && AllQuotes(s[..i]) && AllQuotes(s[i + |r|..])
  {
    var l := TrimLeftQuotes(s);
    var r := TrimRightQuotes(l);
    var i := |s| - |l|;
    SplitAround(s, l, r);
  }

  lemma SplitAround(s: string, l: string, r: string)
    requires |l| <= |s| && l == s[|s| - |l|..]
    requires |r| <= |l| && r == l[..|r|]
    ensures var i := |s| - |l|; s == s[..i] + r + s[i + |r|..] && s[i + |r|..] == l[|r|..]
  {
    var i := |s| - |l|;
    assert s == s[..i] + l;
    assert l == r + l[|r|..];
  }

  /** `UnmarshalJSON`: demands an opening and a closing quote, strips every quote at either end,
      and stores the parsed duration; on any error the receiver keeps its old value. */
  function UnmarshalJSON(d: JsonDuration, b: string, parse: Parser): (u: Unmarshalled)
    ensures !HasPrefixQuote(b) ==> u == Unmarshalled(d, Some(InvalidDuration1(b)))
    ensures HasPrefixQuote(b) && !HasSuffixQuote(b) ==> u == Unmarshalled(d, Some(InvalidDuration2(b)))
    ensures HasPrefixQuote(b) && HasSuffixQuote(b) && parse(TrimQuotes(b)).Err? ==>
      u == Unmarshalled(d, Some(ParseError(parse(TrimQuotes(b)).error)))
    ensures u.err.Some? ==> u.d == d
    ensures u.err.None? <==> HasPrefixQuote(b) && HasSuffixQuote(b) && parse(TrimQuotes(b)).Ok?
    ensures u.err.None? ==> u.d == JsonDuration(parse(TrimQuotes(b)).value)
  {
    if !HasPrefixQuote(b) then Unmarshalled(d, Some(InvalidDuration1(b)))
    else if !HasSuffixQuote(b) then Unmarshalled(d, Some(InvalidDuration2(b)))
    else
      match parse(TrimQuotes(b))
      case Err(e) => Unmarshalled(d, Some(ParseError(e)))
      case Ok(v) => Unmarshalled(JsonDuration(v), None)
  }

  /** `String`: the duration's own rendering. */
  function String(d: JsonDuration, show: Show): string {
    show(d.duration)
  }

  /** `GoString` delegates to `String`. */
  function GoString(d: JsonDuration, show: Show): string {
    String(d, show)
  }

  /** `MarshalJSON` as written: the rendering itself, without the quotes a JSON string needs. */
  function MarshalJSON(d: JsonDuration, show: Show): string {
    String(d, show)
  }

  /** `MarshalJSON` as evidently intended: the rendering as a JSON string. */
  function MarshalJSONQuoted(d: JsonDuration, show: Show): (b: string)
    ensures HasPrefixQuote(b) && HasSuffixQuote(b)
    ensures |b| == |String(d, show)| + 2 && b[1..|b| - 1] == String(d, show)
  {
    [Quote] + String(d, show) + [Quote]
  }

  /** Trimming is idempotent. */
  lemma TrimQuotesIdempotent(s: string)
    ensures TrimQuotes(TrimQuotes(s)) == TrimQuotes(s)
  {
  }

  /** Leading quotes in front of a text that does not start with one are all removed. */
  lemma {:induction false} TrimLeftSkips(q: string, u: string)
    requires AllQuotes(q) && !HasPrefixQuote(u)
    ensures TrimLeftQuotes(q + u) == u
    decreases |q|
  {
    if |q| > 0 {
      assert (q + u)[1..] == q[1..] + u;
      TrimLeftSkips(q[1..], u);
    }
  }

  /** Trailing quotes after a text that does not end with one are all removed. */
  lemma {:induction false} TrimRightSkips(u: string, q: string)
    requires AllQuotes(q) && !HasSuffixQuote(u)
    ensures TrimRightQuotes(u + q) == u
    decreases |q|
  {
    if |q| > 0 {
      assert (u + q)[..|u + q| - 1] == u + q[..|q| - 1];
      TrimRightSkips(u, q[..|q| - 1]);
    }
  }

  /** Quotes around a text with no quote at either end are exactly what trimming removes. */
  lemma TrimQuotesUnwraps(q1: string, t: string, q2: string)
    requires AllQuotes(q1) && AllQuotes(q2)
    requires !HasPrefixQuote(t) && !HasSuffixQuote(t)
    ensures TrimQuotes(q1 + t + q2) == t
  {
    if |t| == 0 {
      assert q1 + t + q2 == (q1 + q2) + "";
      TrimLeftSkips(q1 + q2, "");
    } else {
      assert q1 + t + q2 == q1 + (t + q2);
      assert (t + q2)[0] == t[0];
      TrimLeftSkips(q1, t + q2);
      TrimRightSkips(t, q2);
    }
  }

  /** `""5m""` reaches the parser as `5m`: every quote is stripped, not just one per side. */
  lemma DoubledQuotesAccepted(d: JsonDuration, parse: Parser)
    ensures UnmarshalJSON(d, "\"\"5m\"\"", parse) ==
      match parse("5m")
      case Ok(v) => Unmarshalled(JsonDuration(v), None)
      case Err(e) => Unmarshalled(d, Some(ParseError(e)))
  {
    TrimQuotesUnwraps("\"\"", "5m", "\"\"");
    assert "\"\"5m\"\"" == "\"\"" + "5m" + "\"\"";
  }

  /** The one-character input `"` passes both quote checks and reaches the parser as the empty string. */
  lemma LoneQuoteReachesParser(d: JsonDuration, parse: Parser)
    ensures UnmarshalJSON(d, "\"", parse) ==
      match parse("")
      case Ok(v) => Unmarshalled(JsonDuration(v), None)
      case Err(e) => Unmarshalled(d, Some(ParseError(e)))
  {
    TrimQuotesUnwraps("\"", "", "");
    assert "\"" == "\"" + "" + "";
  }

  /** What `MarshalJSON` writes is refused by `UnmarshalJSON` whenever the rendering does not
      start with a quote (`time.Duration.String` never does): the pair is not a round trip. */
  lemma MarshalNotRoundTrip(d: JsonDuration, into: JsonDuration, show: Show, parse: Parser)
    requires !HasPrefixQuote(show(d.duration))
    ensures UnmarshalJSON(into, MarshalJSON(d, show), parse) == Unmarshalled(into, Some(InvalidDuration1(show(d.duration))))
  {
  }

  /** `GoString`, `String` and `MarshalJSON` all write the duration's own rendering. */
  lemma GoStringIsMarshalled(d: JsonDuration, show: Show)
    ensures GoString(d, show) == String(d, show) == MarshalJSON(d, show) == show(d.duration)
  {
  }

  /** With quotes added, a rendering the parser reads back survives the round trip. */
  lemma MarshalQuotedRoundTrip(d: JsonDuration, into: JsonDuration, show: Show, parse: Parser)
    requires !HasPrefixQuote(show(d.duration)) && !HasSuffixQuote(show(d.duration))
    requires parse(show(d.duration)) == Ok(d.duration)
    ensures UnmarshalJSON(into, MarshalJSONQuoted(d, show), parse) == Unmarshalled(d, None)
  {
    var t := show(d.duration);
    TrimQuotesUnwraps([Quote], t, [Quote]);
  }
}

=== FILE: maybe.dfy ===
/** Optional values and results, used wherever the Go code returns a value
    together with an `error` that may be nil. */
module Maybe {

  /** A value that may be absent; `None` plays the role of Go's nil. */
  datatype Option<+T> = None | Some(value: T)

  /** A value or an error, as in Go's `(T, error)` pair when exactly one is meaningful. */
  datatype Result<+T, +E> = Ok(value: T) | Err(error: E)
}

=== FILE: metrics.dfy ===
/** The per-server gauges `runSpeedTests` writes (run.go), with the
    Prometheus registry modelled as a map from (gauge, label tuple) to value. */
module Metrics {
  import opened Maybe
  import opened Results
  import Decimal

  /** The eight labelled gauge vectors. */
  datatype Gauge =
    | DownloadBytesPerSecond | DownloadBytes | DownloadElapsedSeconds
    | UploadBytesPerSecond | UploadBytes | UploadElapsedSeconds
    | PingSeconds | PingJitterSeconds

  /** The label values for `server_id`, `server_name` and `location`. */
  datatype Labels = Labels(serverID: string, serverName: string, location: string)

  /** One time series: a gauge vector and a label tuple. */
  datatype SeriesKey = SeriesKey(gauge: Gauge, labels: Labels)

  type Gauges = map<SeriesKey, real>

  const TwoTo63: int := 0x8000_0000_0000_0000

  /** `time.Millisecond` in nanoseconds. */
  const Millisecond: int := 1_000_000

  /** `time.Second` in nanoseconds. */
  const Second: int := 1_000_000_000

  /** Go's float-to-integer conversion: the fraction is discarded, rounding toward zero. */
  function Trunc(x: real): (n: int)
    ensures 0.0 <= x ==> n as real <= x < n as real + 1.0
    ensures x < 0.0 ==> n as real - 1.0 < x <= n as real
  {
    if x >= 0.0 then x.Floor else -((-x).Floor)
  }

  /** Two's-complement wrap-around of a signed 64-bit result. */
  function Wrap64(n: int): (w: int)
    ensures -TwoTo63 <= w < TwoTo63
    ensures (w - n) % (2 * TwoTo63) == 0
    ensures -TwoTo63 <= n < TwoTo63 ==> w == n
  {
    (n + TwoTo63) % (2 * TwoTo63) - TwoTo63
  }

  /** `(time.Duration(ms) * time.Millisecond).Seconds()`: milliseconds as a float become
      seconds, with the fractional millisecond dropped. */
  function MillisToSeconds(ms: real): (sec: real)
    ensures -TwoTo63 <= Trunc(ms) * Millisecond < TwoTo63 ==> sec * 1000.0 == Trunc(ms) as real
  {
    var ns := Wrap64(Trunc(ms) * Millisecond);
    ns as real / Second as real
  }

  /** For a non-negative reading in range, the result is the reading in seconds,
      rounded down to a whole millisecond. */
  lemma MillisToSecondsBounds(ms: real)
    requires 0.0 <= ms < 1_000_000_000.0
    ensures MillisToSeconds(ms) <= ms / 1000.0 < MillisToSeconds(ms) + 0.001
  {
    assert Trunc(ms) < 1_000_000_000;
  }

  /** A latency of 10 ms is published as 0.010 s; a jitter of 1.9 ms as 0.001 s. */
  lemma MillisToSecondsExamples()
    ensures MillisToSeconds(10.0) == 0.010
    ensures MillisToSeconds(1.9) == 0.001
  {
    assert Trunc(10.0) == 10;
    assert Trunc(1.9) == 1;
  }

  /** The label tuple of a result: decimal server id, server name, location. */
  function LabelsOf(t: TestResults): Labels {
    Labels(Decimal.Itoa(t.server.id), t.server.name, t.server.location)
  }

  /** The `server_id` label reads back as the server's id, so results of different
      servers never share a series. */
  lemma LabelsIdentifyServer(t: TestResults, u: TestResults)
    ensures Decimal.Atoi(LabelsOf(t).serverID) == Some(t.server.id)
    ensures LabelsOf(t) == LabelsOf(u) ==> t.server.id == u.server.id
  {
    Decimal.ItoaRoundTrip(t.server.id);
    Decimal.ItoaInjective(t.server.id, u.server.id);
  }

  /** The value each gauge takes from a result. */
  function GaugeValue(g: Gauge, t: TestResults): real {
    match g
    case DownloadBytesPerSecond => t.download.bandwidth
    case DownloadBytes => t.download.bytes
    case DownloadElapsedSeconds => t.download.elapsed
    case UploadBytesPerSecond => t.upload.bandwidth
    case UploadBytes => t.upload.bytes
    case UploadElapsedSeconds => t.upload.elapsed
    case PingSeconds => MillisToSeconds(t.ping.latency)
    case PingJitterSeconds => MillisToSeconds(t.ping.jitter)
  }

  /** The eight series of one label tuple. */
  function SeriesOf(l: Labels): (ks: set<SeriesKey>)
    ensures forall k :: k in ks <==> k.labels == l
  {
    var ks := set g: Gauge | g in AllGauges :: SeriesKey(g, l);
    forall k: SeriesKey | k.labels == l ensures k in ks {
      AllGaugesComplete(k.gauge);
      assert k == SeriesKey(k.gauge, l);
    }
    ks
  }

  const AllGauges: set<Gauge> := {
    DownloadBytesPerSecond, DownloadBytes, DownloadElapsedSeconds,
    UploadBytesPerSecond, UploadBytes, UploadElapsedSeconds,
    PingSeconds, PingJitterSeconds}

  lemma AllGaugesComplete(g: Gauge)
    ensures g in AllGauges
  {
  }

  /** The body of the loop over results: all eight series of the result's labels are set
      from the result; every other series is left as it was. */
  function SetResult(m: Gauges, t: TestResults): (r: Gauges)
    ensures forall k :: k in r <==> k in m || k.labels == LabelsOf(t)
    ensures forall k :: k in r && k.labels == LabelsOf(t) ==> r[k] == GaugeValue(k.gauge, t)
    ensures forall k :: k in m && k.labels != LabelsOf(t) ==> r[k] == m[k]
  {
    var l := LabelsOf(t);
    map k | k in m.Keys + SeriesOf(l) :: if k.labels == l then GaugeValue(k.gauge, t) else m[k]
  }

  /** The eight `WithLabelValues(labels...).Set(...)` calls for one result, in source order. */
  function SetEight(m: Gauges, l: Labels, t: TestResults): Gauges {
    m[SeriesKey(DownloadBytesPerSecond, l) := t.download.bandwidth]
     [SeriesKey(DownloadBytes, l) := t.download.bytes]
     [SeriesKey(DownloadElapsedSeconds, l) := t.download.elapsed]
     [SeriesKey(UploadBytesPerSecond, l) := t.upload.bandwidth]
     [SeriesKey(UploadBytes, l) := t.upload.bytes]
     [SeriesKey(UploadElapsedSeconds, l) := t.upload.elapsed]
     [SeriesKey(PingSeconds, l) := MillisToSeconds(t.ping.latency)]
     [SeriesKey(PingJitterSeconds, l) := MillisToSeconds(t.ping.jitter)]
  }

  /** The eight sets in source order amount to `SetResult`. */
  lemma EightSetsAreSetResult(m: Gauges, t: TestResults)
    ensures SetEight(m, LabelsOf(t), t) == SetResult(m, t)
  {
    var l := LabelsOf(t);
    var e := SetEight(m, l, t);
    var r := SetResult(m, t);
    forall k | k in r ensures k in e && e[k] == r[k] {
      if k.labels == l {
        assert k == SeriesKey(k.gauge, l);
        match k.gauge
        case DownloadBytesPerSecond =>
        case DownloadBytes =>
        case DownloadElapsedSeconds =>
        case UploadBytesPerSecond =>
        case UploadBytes =>
        case UploadElapsedSeconds =>
        case PingSeconds =>
        case PingJitterSeconds =>
      }
    }
    assert e.Keys == r.Keys;
  }

  /** The index of the last result that carries the given labels, or -1 when none does. */
  function LastIndexWith(rs: seq<TestResults>, l: Labels): (i: int)
    ensures -1 <= i < |rs|
    ensures i >= 0 ==> LabelsOf(rs[i]) == l
    ensures forall j :: i < j < |rs| ==> LabelsOf(rs[j]) != l
    decreases |rs|
  {
    if |rs| == 0 then -1
    else if LabelsOf(rs[|rs| - 1]) == l then |rs| - 1
    else
      var p := rs[..|rs| - 1];
      var i := LastIndexWith(p, l);
      assert i >= 0 ==> rs[i] == p[i];
      forall j | i < j < |rs|
        ensures LabelsOf(rs[j]) != l
      {
        if j < |p| {
          assert rs[j] == p[j];
        }
      }
      i
  }

  /** The loop over results, in order.  Series of labels no result carries keep their
      value (carry-forward); every other series holds the value from the last result
      with its labels. */
  function Publish(m: Gauges, rs: seq<TestResults>): (r: Gauges)
    ensures forall k :: k in r <==> k in m || LastIndexWith(rs, k.labels) >= 0
    ensures forall k :: k in r && LastIndexWith(rs, k.labels) >= 0 ==> r[k] == GaugeValue(k.gauge, rs[LastIndexWith(rs, k.labels)])
    ensures forall k :: k in m && LastIndexWith(rs, k.labels) < 0 ==> r[k] == m[k]
    decreases |rs|
  {
    if |rs| == 0 then m
    else
      var p := rs[..|rs| - 1];
      var q := Publish(m, p);
      var r := SetResult(q, rs[|rs| - 1]);
      forall k: SeriesKey
        ensures k in r <==> k in m || LastIndexWith(rs, k.labels) >= 0
        ensures k in r && LastIndexWith(rs, k.labels) >= 0 ==> r[k] == GaugeValue(k.gauge, rs[LastIndexWith(rs, k.labels)])
        ensures k in m && LastIndexWith(rs, k.labels) < 0 ==> r[k] == m[k]
      {
        PublishStepAt(m, rs, q, k);
      }
      r
  }

  /** One more result on top of the earlier ones, looked at for one series: the key set and
      the value keep the meaning `Publish` gives them. */
  lemma PublishStepAt(m: Gauges, rs: seq<TestResults>, q: Gauges, k: SeriesKey)
    requires |rs| > 0
    requires var p := rs[..|rs| - 1];
      && (k in q <==> k in m || LastIndexWith(p, k.labels) >= 0)
      && (k in q && LastIndexWith(p, k.labels) >= 0 ==> q[k] == GaugeValue(k.gauge, p[LastIndexWith(p, k.labels)]))
      && (k in m && LastIndexWith(p, k.labels) < 0 ==> q[k] == m[k])
    ensures var r := SetResult(q, rs[|rs| - 1]);
      && (k in r <==> k in m || LastIndexWith(rs, k.labels) >= 0)
      && (k in r && LastIndexWith(rs, k.labels) >= 0 ==> r[k] == GaugeValue(k.gauge, rs[LastIndexWith(rs, k.labels)]))
      && (k in m && LastIndexWith(rs, k.labels) < 0 ==> r[k] == m[k])
  {
    var p := rs[..|rs| - 1];
    if k.labels != LabelsOf(rs[|rs| - 1]) {
      var i := LastIndexWith(p, k.labels);
      assert LastIndexWith(rs, k.labels) == i;
      assert i >= 0 ==> rs[i] == p[i];
    }
  }

  /** Publishing a non-empty list is publishing all but its last result, then that one. */
  lemma PublishLast(m: Gauges, rs: seq<TestResults>)
    requires |rs| > 0
    ensures Publish(m, rs) == SetResult(Publish(m, rs[..|rs| - 1]), rs[|rs| - 1])
  {
  }

  /** Every update is a `Set`, so publishing the same results twice equals publishing them once. */
  lemma PublishIdempotent(m: Gauges, rs: seq<TestResults>)
    ensures Publish(Publish(m, rs), rs) == Publish(m, rs)
  {
    var p := Publish(m, rs);
    var q := Publish(p, rs);
    forall k: SeriesKey
      ensures (k in q <==> k in p) && (k in q ==> q[k] == p[k])
    {
      PublishIdempotentAt(m, rs, k);
    }
    SameSeries(q, p);
  }

  /** Two registries with the same series and the same values are equal. */
  lemma SameSeries(a: Gauges, b: Gauges)
    requires forall k :: k in a <==> k in b
    requires forall k :: k in a ==> a[k] == b[k]
    ensures a == b
  {
    assert a.Keys == b.Keys;
  }

  /** Publishing twice agrees with publishing once on one series. */
  lemma PublishIdempotentAt(m: Gauges, rs: seq<TestResults>, k: SeriesKey)
    ensures k in Publish(Publish(m, rs), rs) <==> k in Publish(m, rs)
    ensures k in Publish(m, rs) ==> Publish(Publish(m, rs), rs)[k] == Publish(m, rs)[k]
  {
  }

  /** The labels a zero record (a failed test) is published under. */
  const ZeroLabels: Labels := Labels("0", "", "")

  /** A zero record anywhere among the results writes zero into all eight series labelled
      ("0", "", ""), provided every result under those labels is a zero record. */
  lemma ZeroRecordWritesZeros(m: Gauges, rs: seq<TestResults>, i: nat)
    requires i < |rs| && rs[i] == ZeroResults
    requires forall j :: 0 <= j < |rs| && LabelsOf(rs[j]) == ZeroLabels ==> rs[j] == ZeroResults
    ensures forall g: Gauge :: SeriesKey(g, ZeroLabels) in Publish(m, rs) && Publish(m, rs)[SeriesKey(g, ZeroLabels)] == 0.0
  {
    assert LabelsOf(ZeroResults) == ZeroLabels;
    var last := LastIndexWith(rs, ZeroLabels);
    assert last >= i;
    assert rs[last] == ZeroResults;
    assert MillisToSeconds(0.0) == 0.0;
  }
}

=== FILE: results.dfy ===
/** The measurement record the external speed-test utility prints, and the
    completeness predicates over it (speedtest/speedtest.go).  Go's float64
    fields are modelled as reals; Go's `int` fields as unbounded integers. */
module Results {

  datatype Ping = Ping(jitter: real, latency: real) {
    /** Both measurements absent. */
    predicate IsZero() {
      latency == 0.0 && jitter == 0.0
    }

    /** Latency absent; a jitter of zero is a legitimate measurement. */
    predicate IsMissingData() {
      latency == 0.0
    }
  }

  datatype Speed = Speed(bandwidth: real, bytes: real, elapsed: real) {
    predicate IsZero() {
      bandwidth == 0.0 && bytes == 0.0 && elapsed == 0.0
    }

    predicate IsMissingData() {
      bandwidth == 0.0 || bytes == 0.0 || elapsed == 0.0
    }
  }

  datatype Server = Server(id: int, name: string, location: string, country: string, host: string, port: int) {
    predicate IsZero() {
      id == 0 && name == "" && location == "" && country == "" && host == "" && port == 0
    }

    predicate IsMissingData() {
      id == 0 || name == "" || location == "" || country == "" || host == "" || port == 0
    }
  }

  datatype TestResults = TestResults(ping: Ping, download: Speed, upload: Speed, packetLoss: real, isp: string, server: Server) {
    /** Any required field is zero or empty.  Packet loss is not required: it may be zero. */
    predicate IsMissingData() {
      ping.IsMissingData() || download.IsMissingData() || upload.IsMissingData() || server.IsMissingData() || isp == ""
    }
  }

  /** Go's zero value `TestResults{}`. */
  const ZeroResults: TestResults :=
    TestResults(Ping(0.0, 0.0), Speed(0.0, 0.0, 0.0), Speed(0.0, 0.0, 0.0), 0.0, "", Server(0, "", "", "", "", 0))

  /** A record with every component zero is in particular missing data. */
  lemma ZeroImpliesMissing(p: Ping, s: Speed, v: Server)
    ensures p.IsZero() ==> p.IsMissingData()
    ensures s.IsZero() ==> s.IsMissingData()
    ensures v.IsZero() ==> v.IsMissingData()
  {
  }

  /** The record is incomplete exactly when one of the fourteen required fields is zero or empty. */
  lemma MissingDataFields(t: TestResults)
    ensures t.IsMissingData() <==>
      || t.ping.latency == 0.0
      || t.download.bandwidth == 0.0 || t.download.bytes == 0.0 || t.download.elapsed == 0.0
      || t.upload.bandwidth == 0.0 || t.upload.bytes == 0.0 || t.upload.elapsed == 0.0
      || t.server.id == 0 || t.server.name == "" || t.server.location == ""
      || t.server.country == "" || t.server.host == "" || t.server.port == 0
      || t.isp == ""
  {
  }

  /** Packet loss and jitter never decide completeness. */
  lemma MissingDataIgnoresLossAndJitter(t: TestResults, loss: real, jitter: real)
    ensures t.(packetLoss := loss, ping := t.ping.(jitter := jitter)).IsMissingData() == t.IsMissingData()
  {
  }

  /** The record a failed test returns is flagged as incomplete, and each of its parts is zero. */
  lemma ZeroResultsMissing()
    ensures ZeroResults.IsMissingData()
    ensures ZeroResults.ping.IsZero() && ZeroResults.download.IsZero() && ZeroResults.upload.IsZero()
    ensures ZeroResults.server.IsZero()
  {
  }
}

=== FILE: runner.dfy ===
/** The runner (run.go): one measurement cycle with its bookkeeping
    (`runSpeedTests`), and the run loop with `Close` as a state machine driven
    by a trace of events.  Wall-clock gauges, logging and the goroutine and
    ticker machinery are not modelled. */
module Runner {
  import opened Maybe
  import opened Results
  import opened SpeedTest
  import opened Metrics

  /** The runner's fixed configuration: the utility to call and the servers to test. */
  datatype Config = Config(cmd: Command, serverIDs: seq<int>)

  /** The metrics the runner writes: the `runs` counter, the `running` gauge and the labelled gauges. */
  datatype Sink = Sink(runs: nat, running: real, gauges: Gauges)

  /** `cancelled`: the context has been cancelled.  `stopped`: `Life.Done` has been closed. */
  datatype Runner = Runner(cancelled: bool, stopped: bool, sink: Sink)

  /** What the outside world does during one cycle: how the utility answers, and the index of
      the first target at which the loop sees the context cancelled by a `Close` issued during
      the cycle (at or beyond the number of targets when none is). */
  datatype CycleEnv = CycleEnv(exec: Exec, cancelAt: nat)

  /** A ticker fire, or the shutdown request. */
  datatype Event = Tick(env: CycleEnv) | Close

  const Initial: Runner := Runner(false, false, Sink(0, 0.0, map[]))

  /** A `Close` during the cycle was seen by the loop before it ran out of targets. */
  predicate CutShort(cfg: Config, env: CycleEnv) {
    env.cancelAt < |cfg.serverIDs|
  }

  /** The results one cycle publishes. */
  function CycleResults(cfg: Config, env: CycleEnv): seq<TestResults> {
    RunTests(env.cancelAt, cfg.cmd, cfg.serverIDs, env.exec).results
  }

  /** The sink as the cycle leaves it just before its deferred function runs: `running` set
      to 1, the tests run, `runs` bumped and the series written. */
  function BeforeDeferred(cfg: Config, s: Sink, env: CycleEnv): Sink {
    var during := s.(running := 1.0);
    var results := CycleResults(cfg, env);
    var counted := during.(runs := during.runs + 1);
    counted.(gauges := Publish(counted.gauges, results))
  }

  /** `runSpeedTests`: nothing at all once the context is cancelled; otherwise mark the cycle
      running, run the tests, count the run whatever the outcome, overwrite the series of every
      result, and clear `running` on the way out. */
  function RunSpeedTests(cfg: Config, r: Runner, env: CycleEnv): (r': Runner)
    ensures r.cancelled ==> r' == r
    ensures !r.cancelled ==> forall k :: k in r'.sink.gauges ==>
      k in r.sink.gauges || LastIndexWith(CycleResults(cfg, env), k.labels) >= 0
    ensures !r.cancelled ==> r'.sink.runs == r.sink.runs + 1 && r'.sink.running == 0.0
    ensures !r.cancelled ==> (r'.cancelled <==> CutShort(cfg, env))
    ensures r'.stopped == r.stopped
    ensures !r.cancelled ==> forall k :: k in r.sink.gauges && LastIndexWith(CycleResults(cfg, env), k.labels) < 0 ==>
      k in r'.sink.gauges && r'.sink.gauges[k] == r.sink.gauges[k]
    ensures !r.cancelled ==> forall k: SeriesKey :: LastIndexWith(CycleResults(cfg, env), k.labels) >= 0 ==>
      k in r'.sink.gauges &&
      r'.sink.gauges[k] == GaugeValue(k.gauge, CycleResults(cfg, env)[LastIndexWith(CycleResults(cfg, env), k.labels)])
  {
    if r.cancelled then r
    else
      Runner(CutShort(cfg, env), r.stopped, BeforeDeferred(cfg, r.sink, env).(running := 0.0))
  }

  /** One event of the run loop.  `Close` cancels the context and then closes `Life.Done`.
      A tick is handed to `runSpeedTests` even after `Close`: the loop's `select` may pick the
      ticker over `Done` when both are ready. */
  function Step(cfg: Config, r: Runner, e: Event): (r': Runner)
    ensures e.Close? ==> r'.cancelled && r'.stopped && r'.sink == r.sink
    ensures r.cancelled ==> r'.cancelled && r'.sink == r.sink
    ensures r.stopped ==> r'.stopped
  {
    match e
    case Close => r.(cancelled := true).(stopped := true)
    case Tick(env) => RunSpeedTests(cfg, r, env)
  }

  function RunTrace(cfg: Config, r: Runner, trace: seq<Event>): Runner
    decreases |trace|
  {
    if |trace| == 0 then r else RunTrace(cfg, Step(cfg, r, trace[0]), trace[1..])
  }

  /** `run`: the cycle at start-up, then the events of the loop.  `closedFirst` says that
      `Close` cancelled the context before the goroutine reached the start-up cycle. */
  function Run(cfg: Config, closedFirst: bool, startup: CycleEnv, trace: seq<Event>): Runner {
    var r := if closedFirst then Step(cfg, Initial, Close) else Initial;
    RunTrace(cfg, RunSpeedTests(cfg, r, startup), trace)
  }

  /** The index of the first event that cancels the context: a `Close`, or a tick during which
      a `Close` was issued; the trace's length when there is none. */
  function CancelPoint(cfg: Config, trace: seq<Event>): (i: nat)
    ensures i <= |trace|
    ensures forall j :: 0 <= j < i ==> trace[j].Tick? && !CutShort(cfg, trace[j].env)
    ensures i < |trace| ==> trace[i].Close? || CutShort(cfg, trace[i].env)
    decreases |trace|
  {
    if |trace| == 0 then 0
    else if trace[0].Close? || CutShort(cfg, trace[0].env) then 0
    else 1 + CancelPoint(cfg, trace[1..])
  }

  function TickCount(trace: seq<Event>): nat
    decreases |trace|
  {
    if |trace| == 0 then 0 else (if trace[0].Tick? then 1 else 0) + TickCount(trace[1..])
  }

  /** The events up to and including the one that cancels the context. */
  function BeforeClose(cfg: Config, trace: seq<Event>): seq<Event> {
    var i := CancelPoint(cfg, trace);
    if i < |trace| then trace[..i + 1] else trace
  }

  /** Once the context is cancelled, no event changes a modelled metric, and the runner stays cancelled. */
  lemma {:induction false} CancelledIsFrozen(cfg: Config, r: Runner, trace: seq<Event>)
    requires r.cancelled
    ensures RunTrace(cfg, r, trace).sink == r.sink
    ensures RunTrace(cfg, r, trace).cancelled
    decreases |trace|
  {
    if |trace| > 0 {
      CancelledIsFrozen(cfg, Step(cfg, r, trace[0]), trace[1..]);
    }
  }

  /** After `Close`, the runner is cancelled and stopped, and whatever follows leaves every
      modelled metric as `Close` found it: cancelling before stopping makes a late tick leave
      them alone. */
  lemma CloseFreezes(cfg: Config, r: Runner, rest: seq<Event>)
    ensures var r' := RunTrace(cfg, r, [Close] + rest);
      r'.sink == r.sink && r'.cancelled && r'.stopped
  {
    var c := Step(cfg, r, Close);
    assert ([Close] + rest)[1..] == rest;
    CancelledIsFrozen(cfg, c, rest);
    StoppedStays(cfg, c, rest);
  }

  lemma {:induction false} StoppedStays(cfg: Config, r: Runner, trace: seq<Event>)
    requires r.stopped
    ensures RunTrace(cfg, r, trace).stopped
    decreases |trace|
  {
    if |trace| > 0 {
      StoppedStays(cfg, Step(cfg, r, trace[0]), trace[1..]);
    }
  }

  /** `runs` grows by one for every tick that starts a cycle before the context is cancelled,
      counting the tick during which a `Close` arrives, and by nothing after that. */
  lemma {:induction false} RunsCountsTicksBeforeClose(cfg: Config, r: Runner, trace: seq<Event>)
    requires !r.cancelled
    ensures RunTrace(cfg, r, trace).sink.runs == r.sink.runs + TickCount(BeforeClose(cfg, trace))
    decreases |trace|
  {
    if |trace| > 0 {
      var s := Step(cfg, r, trace[0]);
      if trace[0].Close? {
        CancelledIsFrozen(cfg, s, trace[1..]);
        assert BeforeClose(cfg, trace) == [trace[0]];
      } else if CutShort(cfg, trace[0].env) {
        CancelledIsFrozen(cfg, s, trace[1..]);
        assert BeforeClose(cfg, trace) == [trace[0]];
      } else {
        RunsCountsTicksBeforeClose(cfg, s, trace[1..]);
        var i := CancelPoint(cfg, trace[1..]);
        assert CancelPoint(cfg, trace) == i + 1;
        if i < |trace[1..]| {
          assert BeforeClose(cfg, trace)[1..] == BeforeClose(cfg, trace[1..]);
        } else {
          assert BeforeClose(cfg, trace) == trace;
        }
      }
    }
  }

  /** Over a whole run, `runs` is the start-up cycle plus the ticks processed before `Close`,
      or 0 when `Close` came before the start-up cycle. */
  lemma RunCountsCycles(cfg: Config, closedFirst: bool, startup: CycleEnv, trace: seq<Event>)
    ensures Run(cfg, closedFirst, startup, trace).sink.runs ==
      if closedFirst then 0
      else 1 + (if CutShort(cfg, startup) then 0 else TickCount(BeforeClose(cfg, trace)))
  {
    var r := if closedFirst then Step(cfg, Initial, Close) else Initial;
    var s := RunSpeedTests(cfg, r, startup);
    if closedFirst || CutShort(cfg, startup) {
      CancelledIsFrozen(cfg, s, trace);
    } else {
      RunsCountsTicksBeforeClose(cfg, s, trace);
    }
  }

  /** The sink after each result's eight `Set` calls, in order, starting from `s`: only the
      gauges change. */
  function ResultWrites(s: Sink, rs: seq<TestResults>): (w: seq<Sink>)
    ensures |w| == |rs|
    ensures forall i :: 0 <= i < |w| ==> w[i].running == s.running && w[i].runs == s.runs
    decreases |rs|
  {
    if |rs| == 0 then []
    else
      var w := ResultWrites(s, rs[..|rs| - 1]);
      var before := if |w| == 0 then s else w[|w| - 1];
      w + [before.(gauges := SetResult(before.gauges, rs[|rs| - 1]))]
  }

  /** After the last result's `Set` calls the gauges are what `Publish` computes. */
  lemma {:induction false} ResultWritesPublish(s: Sink, rs: seq<TestResults>)
    requires |rs| > 0
    ensures ResultWrites(s, rs)[|rs| - 1].gauges == Publish(s.gauges, rs)
    decreases |rs|
  {
    var p := rs[..|rs| - 1];
    if |p| > 0 {
      ResultWritesPublish(s, p);
    }
    PublishLast(s.gauges, rs);
  }

  /** The states the sink passes through during a cycle that publishes `rs`, in source order:
      after `running.Set(1)`, after `runs.Add(1)` once the tests are done, after each result's
      eight `Set`s (one state per result), and after the deferred `running.Set(0)`. */
  function StatesOf(s: Sink, rs: seq<TestResults>): seq<Sink> {
    var started := s.(running := 1.0);
    var counted := started.(runs := started.runs + 1);
    var written := ResultWrites(counted, rs);
    var last := if |written| == 0 then counted else written[|written| - 1];
    [started, counted] + written + [last.(running := 0.0)]
  }

  /** The states the sink passes through during one cycle. */
  function CycleStates(cfg: Config, s: Sink, env: CycleEnv): seq<Sink> {
    StatesOf(s, CycleResults(cfg, env))
  }

  /** `running` reads 1 in every state of the cycle except the last, which the deferred reset
      leaves at 0; from the `runs.Add` on, the count is one higher; and the last state is
      what `runSpeedTests` leaves behind. */
  lemma RunningBracketsCycle(cfg: Config, r: Runner, env: CycleEnv)
    requires !r.cancelled
    ensures var states := CycleStates(cfg, r.sink, env);
      && |states| == |CycleResults(cfg, env)| + 3
      && (forall i :: 0 <= i < |states| - 1 ==> states[i].running == 1.0)
      && states[|states| - 1].running == 0.0
      && (forall i :: 1 <= i < |states| ==> states[i].runs == r.sink.runs + 1)
      && states[|states| - 1] == RunSpeedTests(cfg, r, env).sink
  {
    StatesBracket(r.sink, CycleResults(cfg, env));
    CycleStatesEnd(cfg, r, env);
  }

  lemma StatesBracket(s: Sink, rs: seq<TestResults>)
    ensures var states := StatesOf(s, rs);
      && |states| == |rs| + 3
      && (forall i :: 0 <= i < |states| - 1 ==> states[i].running == 1.0)
      && states[|states| - 1].running == 0.0
      && (forall i :: 1 <= i < |states| ==> states[i].runs == s.runs + 1)
  {
    var started := s.(running := 1.0);
    var counted := started.(runs := started.runs + 1);
    var written := ResultWrites(counted, rs);
    var last := if |written| == 0 then counted else written[|written| - 1];
    BracketShape(started, counted, written, last.(running := 0.0), s.runs + 1);
  }

  /** A run of states with `running` at 1 closed by one with `running` at 0. */
  lemma BracketShape(started: Sink, counted: Sink, written: seq<Sink>, final: Sink, n: nat)
    requires started.running == 1.0 && counted.running == 1.0 && final.running == 0.0
    requires counted.runs == n && final.runs == n
    requires forall i :: 0 <= i < |written| ==> written[i].running == 1.0 && written[i].runs == n
    ensures var states := [started, counted] + written + [final];
      && (forall i :: 0 <= i < |states| - 1 ==> states[i].running == 1.0)
      && (forall i :: 1 <= i < |states| ==> states[i].runs == n)
  {
    var states := [started, counted] + written + [final];
    forall i | 2 <= i < |states| - 1
      ensures states[i] == written[i - 2]
    {
    }
  }

  lemma CycleStatesEnd(cfg: Config, r: Runner, env: CycleEnv)
    requires !r.cancelled
    ensures var states := CycleStates(cfg, r.sink, env);
      |states| > 0 && states[|states| - 1] == RunSpeedTests(cfg, r, env).sink
  {
    var rs := CycleResults(cfg, env);
    if |rs| > 0 {
      var started := r.sink.(running := 1.0);
      ResultWritesPublish(started.(runs := started.runs + 1), rs);
    }
  }

  /** Two complete cycles with the same outcomes leave the gauges as one cycle does:
      values are overwritten, not accumulated. */
  lemma RepeatedCycleSameGauges(cfg: Config, r: Runner, env: CycleEnv)
    ensures var once := RunSpeedTests(cfg, r, env);
      RunSpeedTests(cfg, once, env).sink.gauges == once.sink.gauges
  {
    PublishIdempotent(r.sink.gauges, CycleResults(cfg, env));
  }

  /** When some target reached fails and no successful test reports the labels ("0", "", ""),
      all eight series under those labels read zero after the cycle. */
  lemma FailedTargetPublishesZeros(cfg: Config, r: Runner, env: CycleEnv, i: nat)
    requires !r.cancelled
    requires i < Min(env.cancelAt, |cfg.serverIDs|)
    requires Fails(cfg.cmd, cfg.serverIDs[i], env.exec)
    requires forall j :: 0 <= j < Min(env.cancelAt, |cfg.serverIDs|) && !Fails(cfg.cmd, cfg.serverIDs[j], env.exec) ==>
      LabelsOf(RunTest(cfg.cmd, cfg.serverIDs[j], env.exec).result) != ZeroLabels
    ensures var m := RunSpeedTests(cfg, r, env).sink.gauges;
      forall g: Gauge :: SeriesKey(g, ZeroLabels) in m && m[SeriesKey(g, ZeroLabels)] == 0.0
  {
    var rs := CycleResults(cfg, env);
    assert forall j :: 0 <= j < |rs| && LabelsOf(rs[j]) == ZeroLabels ==> rs[j] == ZeroResults;
    ZeroRecordWritesZeros(r.sink.gauges, rs, i);
  }
}

=== FILE: scenarios.dfy ===
/** Two concrete runs: a cycle over two servers where the second one's utility
    exits with an error, and a run shut down after one tick. */
module Scenarios {
  import opened Maybe
  import opened Results
  import opened SpeedTest
  import opened Metrics
  import opened Runner
  import Decimal

  const Sample: TestResults :=
    TestResults(Ping(1.0, 10.0), Speed(5000.0, 500000.0, 100.0), Speed(2000.0, 200000.0, 100.0), 0.0, "ISP",
                Server(100, "A", "L", "C", "h", 8080))

  const TwoServers: Config := Config(Command("speedtest", ["-f", "json"]), [100, 200])

  /** The utility answers for server 100 and exits with an error for every other server. */
  function OnlyFirstAnswers(inv: Invocation): Outcome {
    if inv.args == ["-f", "json", "-s", "100"] then Parsed(Sample) else ProcFailed
  }

  lemma ItoaExamples()
    ensures Decimal.Itoa(100) == "100" && Decimal.Itoa(200) == "200"
  {
    assert Decimal.NatDigits(1) == "1";
    assert Decimal.NatDigits(10) == "10";
    assert Decimal.NatDigits(2) == "2";
    assert Decimal.NatDigits(20) == "20";
  }

  lemma TwoServersTests()
    ensures RunTest(TwoServers.cmd, 100, OnlyFirstAnswers) == TestReturn(Sample, None)
    ensures RunTest(TwoServers.cmd, 200, OnlyFirstAnswers) == TestReturn(ZeroResults, Some(RunFailed))
  {
    ItoaExamples();
    assert TestArgs(TwoServers.cmd, 100) == ["-f", "json", "-s", "100"];
    assert TestArgs(TwoServers.cmd, 200)[3] == "200";
  }

  /** Servers 100 and 200, the second failing: two records (the second the zero record)
      and one error. */
  lemma TwoServersOneFails()
    ensures var c := RunTests(2, TwoServers.cmd, TwoServers.serverIDs, OnlyFirstAnswers);
      && c.results == [Sample, ZeroResults]
      && c.err == Some(MultiError([RunFailed]))
  {
    TwoServersTests();
    var c := RunTests(2, TwoServers.cmd, TwoServers.serverIDs, OnlyFirstAnswers);
    assert c.results == [Sample, ZeroResults];
    var l1 := Loop(2, TwoServers.cmd, TwoServers.serverIDs, OnlyFirstAnswers, 1);
    var l2 := Loop(2, TwoServers.cmd, TwoServers.serverIDs, OnlyFirstAnswers, 2);
    assert l1.merr == MultiError([]);
    assert l2.merr == MultiError([RunFailed]);
  }

  /** The cycle over servers 100 and 200, the second failing, run from the initial state:
      a ping of 10 ms is published as 0.010 s under server 100's labels. */
  lemma TwoServersPingPublished()
    ensures var g := RunSpeedTests(TwoServers, Initial, CycleEnv(OnlyFirstAnswers, 2)).sink.gauges;
      var k := SeriesKey(PingSeconds, Labels("100", "A", "L"));
      k in g && g[k] == 0.010
  {
    var env := CycleEnv(OnlyFirstAnswers, 2);
    TwoServersOneFails();
    var rs := CycleResults(TwoServers, env);
    assert rs == [Sample, ZeroResults];
    SampleIsLast(rs);
    SamplePing();
  }

  lemma SamplePing()
    ensures GaugeValue(PingSeconds, Sample) == 0.010
  {
    MillisToSecondsExamples();
  }

  lemma SampleIsLast(rs: seq<TestResults>)
    requires rs == [Sample, ZeroResults]
    ensures LastIndexWith(rs, Labels("100", "A", "L")) == 0
  {
    var l := Labels("100", "A", "L");
    ItoaExamples();
    assert LabelsOf(rs[0]) == l;
    assert LabelsOf(rs[1]) != l;
  }

  /** Start-up cycle, one tick, then `Close`: two cycles are counted, and a tick arriving
      after `Close` adds nothing. */
  lemma StartupTickThenClose(cfg: Config, env: CycleEnv, late: CycleEnv)
    requires !CutShort(cfg, env)
    ensures Run(cfg, false, env, [Tick(env), Close]).sink.runs == 2
    ensures Run(cfg, false, env, [Tick(env), Close, Tick(late)]).sink == Run(cfg, false, env, [Tick(env), Close]).sink
  {
    var trace := [Tick(env), Close];
    var longer := [Tick(env), Close, Tick(late)];
    assert trace[1..] == [Close];
    assert CancelPoint(cfg, [Close]) == 0;
    assert CancelPoint(cfg, trace) == 1;
    assert BeforeClose(cfg, trace) == trace;
    assert TickCount([Close]) == 0;
    assert TickCount(trace) == 1;
    RunCountsCycles(cfg, false, env, trace);
    var s := RunSpeedTests(cfg, Initial, env);
    var t := Step(cfg, s, Tick(env));
    assert Run(cfg, false, env, trace) == RunTrace(cfg, t, [Close]);
    assert longer[1..] == [Close] + [Tick(late)];
    assert Run(cfg, false, env, longer) == RunTrace(cfg, t, [Close] + [Tick(late)]);
    assert [Close] == [Close] + [];
    CloseFreezes(cfg, t, [Tick(late)]);
    CloseFreezes(cfg, t, []);
  }
}

=== FILE: speedtest.dfy ===
/** One speed test per server and the per-cycle loop over all servers
    (speedtest/speedtest.go).  Running the external utility and decoding its
    JSON output are abstracted into an `Exec` function from the command line
    to an `Outcome`. */
module SpeedTest {
  import opened Maybe
  import opened Results
  import Decimal

  /** The configured utility: executable name and base arguments. */
  datatype Command = Command(name: string, args: seq<string>)

  /** A complete command line handed to the operating system. */
  datatype Invocation = Invocation(name: string, args: seq<string>)

  /** What running the utility and decoding its standard output produced. */
  datatype Outcome = ProcFailed | ParseFailed | Parsed(results: TestResults)

  /** The environment's answer to each command line within one cycle. */
  type Exec = Invocation -> Outcome

  /** The two wrapped errors `RunTest` can return. */
  datatype TestError = RunFailed | UnmarshalFailed

  /** go-multierror's `*multierror.Error`: the errors appended so far, in order. */
  datatype MultiError = MultiError(errors: seq<TestError>)

  /** `RunTest`'s pair of return values. */
  datatype TestReturn = TestReturn(result: TestResults, err: Option<TestError>)

  /** `RunTests`'s pair of return values. */
  datatype CycleReturn = CycleReturn(results: seq<TestResults>, err: Option<MultiError>)

  /** `multierror.Append`: a nil error is dropped, any other is added at the end. */
  function Append(m: MultiError, e: Option<TestError>): (r: MultiError)
    ensures e.None? ==> r == m
    ensures e.Some? ==> |r.errors| == |m.errors| + 1 && r.errors[..|m.errors|] == m.errors && r.errors[|m.errors|] == e.value
  {
    match e
    case None => m
    case Some(x) => MultiError(m.errors + [x])
  }

  /** `ErrorOrNil`: nil when nothing was collected. */
  function ErrorOrNil(m: MultiError): Option<MultiError> {
    if |m.errors| == 0 then None else Some(m)
  }

  /** Appending to a collection and then asking `ErrorOrNil`: nil exactly when nothing was
      collected before and the appended error is nil; otherwise the collection, which ends
      with the appended error when it is not nil. */
  lemma AppendThenErrorOrNil(m: MultiError, e: Option<TestError>)
    ensures ErrorOrNil(Append(m, e)).None? <==> |m.errors| == 0 && e.None?
    ensures ErrorOrNil(Append(m, e)).Some? ==> ErrorOrNil(Append(m, e)).value.errors[..|m.errors|] == m.errors
    ensures e.Some? ==> ErrorOrNil(Append(m, e)) == Some(MultiError(m.errors + [e.value]))
  {
  }

  /** The command line for one server: the base arguments, then `-s` and the server id in decimal. */
  function TestArgs(cmd: Command, serverID: int): seq<string> {
    cmd.args + ["-s", Decimal.Itoa(serverID)]
  }

  /** The command line keeps the base arguments as a prefix, adds exactly two, and its last
      argument reads back as the server id. */
  lemma TestArgsShape(cmd: Command, serverID: int)
    ensures var args := TestArgs(cmd, serverID);
      && |args| == |cmd.args| + 2
      && args[..|cmd.args|] == cmd.args
      && args[|cmd.args|] == "-s"
      && Decimal.Atoi(args[|cmd.args| + 1]) == Some(serverID)
  {
    Decimal.ItoaRoundTrip(serverID);
    var args := TestArgs(cmd, serverID);
    assert args[|cmd.args| + 1] == Decimal.Itoa(serverID);
  }

  /** `RunTest`: a failure of the process or of decoding yields the zero record and an error;
      otherwise the decoded record and no error. */
  function RunTest(cmd: Command, serverID: int, exec: Exec): (r: TestReturn)
    ensures var o := exec(Invocation(cmd.name, TestArgs(cmd, serverID)));
      && (o.ProcFailed? <==> r.err == Some(RunFailed))
      && (o.ParseFailed? <==> r.err == Some(UnmarshalFailed))
      && (o.Parsed? <==> r.err.None?)
      && (o.Parsed? ==> r.result == o.results)
    ensures r.err.Some? ==> r.result == ZeroResults && r.result.IsMissingData()
  {
    match exec(Invocation(cmd.name, TestArgs(cmd, serverID)))
    case ProcFailed => TestReturn(ZeroResults, Some(RunFailed))
    case ParseFailed => TestReturn(ZeroResults, Some(UnmarshalFailed))
    case Parsed(t) => TestReturn(t, None)
  }

  predicate Fails(cmd: Command, serverID: int, exec: Exec) {
    RunTest(cmd, serverID, exec).err.Some?
  }

  /** How many of the given servers' tests fail. */
  function FailureCount(cmd: Command, ids: seq<int>, exec: Exec): (n: nat)
    ensures n <= |ids|
    decreases |ids|
  {
    if |ids| == 0 then 0
    else FailureCount(cmd, ids[..|ids| - 1], exec) + (if Fails(cmd, ids[|ids| - 1], exec) then 1 else 0)
  }

  lemma FailureCountStep(cmd: Command, ids: seq<int>, exec: Exec, i: nat)
    requires 0 < i <= |ids|
    ensures FailureCount(cmd, ids[..i], exec) ==
      FailureCount(cmd, ids[..i - 1], exec) + (if Fails(cmd, ids[i - 1], exec) then 1 else 0)
  {
    assert ids[..i][..i - 1] == ids[..i - 1];
  }

  /** The errors of the given servers' failing tests, in server order: what the loop's
      `multierror.Append` calls collect. */
  function FailureErrors(cmd: Command, ids: seq<int>, exec: Exec): (es: seq<TestError>)
    ensures |es| == FailureCount(cmd, ids, exec)
    decreases |ids|
  {
    if |ids| == 0 then []
    else
      var t := RunTest(cmd, ids[|ids| - 1], exec);
      FailureErrors(cmd, ids[..|ids| - 1], exec) + (if t.err.Some? then [t.err.value] else [])
  }

  lemma FailureErrorsStep(cmd: Command, ids: seq<int>, exec: Exec, i: nat)
    requires 0 < i <= |ids|
    ensures var t := RunTest(cmd, ids[i - 1], exec);
      FailureErrors(cmd, ids[..i], exec) ==
        FailureErrors(cmd, ids[..i - 1], exec) + (if t.err.Some? then [t.err.value] else [])
  {
    assert ids[..i][..i - 1] == ids[..i - 1];
  }

  /** `isClosed(ctx)` as seen before target `i`, when cancellation becomes visible from index `cancelAt` on. */
  predicate IsClosed(cancelAt: nat, i: nat) {
    i >= cancelAt
  }

  function Min(a: nat, b: nat): nat {
    if a <= b then a else b
  }

  /** The loop's variables after it has considered the first `i` targets;
      `returned` records that the loop has already taken its early return. */
  datatype Sweep = Sweep(results: seq<TestResults>, merr: MultiError, returned: bool)

  /** The `for` loop of `RunTests` unrolled `i` times: check for cancellation, run the test,
      append its error (if any) and its record (always). */
  function Loop(cancelAt: nat, cmd: Command, ids: seq<int>, exec: Exec, i: nat): (st: Sweep)
    requires i <= |ids|
    ensures |st.results| == Min(cancelAt, i)
    ensures st.returned <==> cancelAt < i
    ensures forall j :: 0 <= j < |st.results| ==> st.results[j] == RunTest(cmd, ids[j], exec).result
    ensures |st.merr.errors| == FailureCount(cmd, ids[..|st.results|], exec)
    ensures st.merr.errors == FailureErrors(cmd, ids[..|st.results|], exec)
    decreases i
  {
    if i == 0 then Sweep([], MultiError([]), false)
    else
      var st := Loop(cancelAt, cmd, ids, exec, i - 1);
      if st.returned || IsClosed(cancelAt, i - 1) then st.(returned := true)
      else
        var t := RunTest(cmd, ids[i - 1], exec);
        FailureCountStep(cmd, ids, exec, i);
        FailureErrorsStep(cmd, ids, exec, i);
        Sweep(st.results + [t.result], Append(st.merr, t.err), false)
  }

  /** `RunTests`: the tests of the servers reached before cancellation, in order, failures
      included as zero records, with their errors collected. */
  function RunTests(cancelAt: nat, cmd: Command, ids: seq<int>, exec: Exec): (c: CycleReturn)
    ensures |c.results| == Min(cancelAt, |ids|)
    ensures forall j :: 0 <= j < |c.results| ==> c.results[j] == RunTest(cmd, ids[j], exec).result
    ensures c.err.Some? <==> FailureCount(cmd, ids[..|c.results|], exec) > 0
    ensures c.err.Some? ==> |c.err.value.errors| == FailureCount(cmd, ids[..|c.results|], exec)
    ensures c.err.Some? ==> c.err.value.errors == FailureErrors(cmd, ids[..|c.results|], exec)
  {
    var st := Loop(cancelAt, cmd, ids, exec, |ids|);
    CycleReturn(st.results, ErrorOrNil(st.merr))
  }

  /** No failure among the attempted targets means no failing index, and conversely. */
  lemma {:induction false} FailureCountZero(cmd: Command, ids: seq<int>, exec: Exec)
    ensures FailureCount(cmd, ids, exec) == 0 <==> forall j :: 0 <= j < |ids| ==> !Fails(cmd, ids[j], exec)
    decreases |ids|
  {
    if |ids| > 0 {
      var p := ids[..|ids| - 1];
      FailureCountZero(cmd, p, exec);
      assert forall j :: 0 <= j < |p| ==> p[j] == ids[j];
    }
  }

  /** When every test fails, the count of errors is the number of tests. */
  lemma {:induction false} FailureCountAll(cmd: Command, ids: seq<int>, exec: Exec)
    requires forall j :: 0 <= j < |ids| ==> Fails(cmd, ids[j], exec)
    ensures FailureCount(cmd, ids, exec) == |ids|
    decreases |ids|
  {
    if |ids| > 0 {
      var p := ids[..|ids| - 1];
      assert forall j :: 0 <= j < |p| ==> p[j] == ids[j];
      FailureCountAll(cmd, p, exec);
    }
  }

  /** The aggregated error is nil exactly when every attempted target succeeded. */
  lemma ErrorIffSomeFailure(cancelAt: nat, cmd: Command, ids: seq<int>, exec: Exec)
    ensures var c := RunTests(cancelAt, cmd, ids, exec);
      c.err.None? <==> forall j :: 0 <= j < |c.results| ==> !Fails(cmd, ids[j], exec)
  {
    var c := RunTests(cancelAt, cmd, ids, exec);
    FailureCountZero(cmd, ids[..|c.results|], exec);
  }

  /** Cancellation before the first target, or no targets at all: nothing run, no error. */
  lemma NothingAttempted(cancelAt: nat, cmd: Command, ids: seq<int>, exec: Exec)
    requires cancelAt == 0 || |ids| == 0
    ensures RunTests(cancelAt, cmd, ids, exec) == CycleReturn([], None)
  {
  }

  /** When every attempted target fails: one zero record per attempted target and an
      error holding one entry per attempt. */
  lemma AllFail(cancelAt: nat, cmd: Command, ids: seq<int>, exec: Exec)
    requires forall j :: 0 <= j < Min(cancelAt, |ids|) ==> Fails(cmd, ids[j], exec)
    requires Min(cancelAt, |ids|) > 0
    ensures var c := RunTests(cancelAt, cmd, ids, exec);
      && (forall j :: 0 <= j < |c.results| ==> c.results[j] == ZeroResults)
      && c.err.Some? && |c.err.value.errors| == |c.results|
  {
    var c := RunTests(cancelAt, cmd, ids, exec);
    var p := ids[..|c.results|];
    assert forall j :: 0 <= j < |p| ==> p[j] == ids[j];
    FailureCountAll(cmd, p, exec);
  }
}
